=== FILE: README.md ===
# Holdings and price pipeline of the portfolio data fetcher, in Dafny

This project models the deterministic core of `scripts/fetch_data.py`, the
batch job that collects end-of-day prices and ETF holdings for a portfolio
application. Every call into yfinance, `requests` and pandas is an oracle
field of `Domain.Env`. The wall clock is the `stamp` field of `Env`, one reading for the whole run. What remains is
modelled as pure functions over sequences and maps:

- **Sector memoiser** (`Sectors`). This is `get_sector` with `_sector_cache`
  passed in and returned explicitly. Each call records the symbols it sends
  to the `info` oracle (`queried`), so "no call on a hit" and "at most one
  call per symbol" can be stated. `Enrichment` holds the per-holding loop
  that both holdings paths use.
- **EOD prices** (`Prices`). Price, change and percent change come from the
  last two closes. A single session counts as its own previous close, and
  the percent change is 0 when the previous close is not positive.
  `FetchEodPrices` keeps exactly the symbols whose lookup gives at least one
  session.
- **Bulk spreadsheet path** (`Ssga`). Download outcome, status check, row
  filter, stripping and rounding, then sector enrichment of the first
  `top_n` holdings only, then truncation. `holdingsCount` and
  `totalHoldings` both keep the full count.
- **API fallback path** (`Yahoo`). Takes the first `top_n` listing rows,
  turns the weight fraction into a percentage, and has no `totalHoldings`.
  An empty or missing listing is a failure. So is a failing `info` call.
- **Orchestrator** (`Orchestrator`). The static source table, the default
  to the API path, and the fallback from the spreadsheet to the API.
- **Run driver** (`Driver`). Covers the ETF loop of `main`. The archive
  fetch happens only when `totalHoldings` (0 when absent) exceeds 50, so
  only SPY can be archived. The index lists exactly the ETFs that produced
  a document. The sector cache is threaded through the whole run.

`Wrappers` (Option), `Text` (Python's `str.strip`) and `Rounding`
(`round(x, 2)` on exact reals) are the helpers.

Three details of the code:

- On the spreadsheet path, `holdingsCount` is the number of kept rows before
  truncation (`scripts/fetch_data.py:198`), not the length of the returned
  list.
- When the ETF name lookup raises on the spreadsheet path, the default is
  `"SPDR <symbol> ETF"`.
- On the API path a failing `info` call fails the whole path
  (`scripts/fetch_data.py:219`). It is not replaced by a default name.

The code also keeps a row whose ticker is only blanks: such a ticker is
neither `''` nor `'-'`. Stripping then leaves an empty symbol
(`Ssga.BlankTickerKept`).

## Model

| member | source | states |
|---|---|---|
| Text.LeftEnd | scripts/fetch_data.py:166 | scanning forward from a position stops at the first non-whitespace character or the end, passing only whitespace |
| Text.RightEnd | scripts/fetch_data.py:166 | scanning backward from a position stops just after the last non-whitespace character or at the start, passing only whitespace |
| Text.TrimLeft | scripts/fetch_data.py:166 | the result is a suffix of the input; everything cut off is whitespace and the result does not start with whitespace |
| Text.TrimRight | scripts/fetch_data.py:166 | the result is a prefix of the input; everything cut off is whitespace and the result does not end with whitespace |
| Text.Strip | scripts/fetch_data.py:166-167 | the stripped string is no longer than the input and has no whitespace at either end |
| Text.StripIsSlice | scripts/fetch_data.py:166-167 | the stripped string is the contiguous piece of the input starting where leading whitespace ends |
| Text.StripCutsOnlySpace | scripts/fetch_data.py:166-167 | everything stripping removes, on both sides, is whitespace |
| Text.StripKeepsTrimmed | scripts/fetch_data.py:166-167 | a string with no whitespace at either end is unchanged by stripping |
| Text.StripIdempotent | scripts/fetch_data.py:166-167 | stripping twice gives the same result as stripping once |
| Text.StripAllSpace | scripts/fetch_data.py:166 | a whitespace-only string strips to the empty string |
| Rounding.Round2 | scripts/fetch_data.py:168 | the rounded value is a whole number of cents, within half a cent of the input, and equal to the input when it already has two decimals |
| Sectors.GetSector | scripts/fetch_data.py:65-81 | a hit returns the cached sector with no oracle call and no cache change; a miss calls the oracle once and caches its sector, or "Unknown" when the field is absent or the call fails; every other entry is unchanged |
| Sectors.GetSectorTwice | scripts/fetch_data.py:70-81 | two calls for the same symbol return the same sector, the second call changes nothing, and together they make at most one oracle call |
| Sectors.GetSectors | scripts/fetch_data.py:179-181 | a run of lookups gives one sector per requested symbol and keeps every earlier cache entry |
| Sectors.GetSectorsKeys | scripts/fetch_data.py:70-81 | after a run of lookups the cache holds exactly its old keys plus the requested symbols |
| Sectors.GetSectorsAnswers | scripts/fetch_data.py:70-81 | each answer is the previously cached sector if there was one, otherwise the oracle's sector, and the cache holds every answer |
| Sectors.GetSectorsLearned | scripts/fetch_data.py:70-81 | every entry a run of lookups adds to the cache is the oracle's sector for that symbol |
| Sectors.GetSectorsGainsQueried | scripts/fetch_data.py:70-81 | after a run of lookups the cache's keys are exactly its old keys plus the symbols the oracle was asked about |
| Sectors.GetSectorsQueries | scripts/fetch_data.py:70-81 | the oracle is asked about exactly the requested symbols missing from the cache, and about each of them once |
| Sectors.AllHits | scripts/fetch_data.py:70-71 | when every requested symbol is cached, no oracle call is made and the cache is unchanged |
| Sectors.RepeatedSymbol | scripts/fetch_data.py:70-81 | the same symbol requested any number of times gets one sector for every request and at most one oracle call |
| Enrichment.EnrichSectors | scripts/fetch_data.py:177-181 | enrichment changes only the sector of each holding, to the cached or freshly looked-up sector, and queries each uncached symbol of the list exactly once and nothing else; the cache gains exactly the queried symbols, each with the oracle's sector |
| Prices.PreviousClose | scripts/fetch_data.py:104 | the previous close is the second-to-last session, or the only session when there is just one |
| Prices.PercentChange | scripts/fetch_data.py:106 | the percent change is 0 when the previous close is not positive; otherwise multiplying it by the previous close gives 100 times the change |
| Prices.QuoteOf | scripts/fetch_data.py:103-106 | before rounding, the price is the last close; one session gives zero change and percent; otherwise the change is last minus previous, and the percent is 0 unless the previous close is positive |
| Prices.PriceRecordOf | scripts/fetch_data.py:103-112 | each field of the record is the unrounded quote rounded to cents, exact when the quote already has two decimals; one session gives change 0 and percent 0, and a non-positive previous close gives percent 0 |
| Prices.TwoSessionExample | scripts/fetch_data.py:103-111 | closes 100.00 then 105.00 give price 105.00, change 5.00 and percent change 5.00 |
| Prices.FetchEodPrices | scripts/fetch_data.py:84-123 | a symbol is in the price map if and only if it was requested and its lookup gave at least one session, and then it carries the full record for its closes; the document's source is "Yahoo Finance" |
| Ssga.KeptIndices | scripts/fetch_data.py:154-163 | the positions of exactly the rows that pass the ticker and weight checks, in increasing order |
| Ssga.ParseRows | scripts/fetch_data.py:154-172 | the row loop succeeds if and only if every kept row has a numeric weight; every holding it builds has sector "Unknown" |
| Ssga.ParseRowsSnoc | scripts/fetch_data.py:154-172 | appending a row extends the row loop by one step: dropped if filtered, a failure if its weight is malformed, otherwise one more holding at the end |
| Ssga.ParseRowsKept | scripts/fetch_data.py:154-172 | the holdings are exactly the kept rows in row order, each with the stripped ticker, the stripped name or '', and the weight rounded to cents |
| Ssga.PlaceholderRowDropped | scripts/fetch_data.py:154-172 | a '-' row between two valid rows is dropped whatever its weight, leaving the two holdings in order with their weights |
| Ssga.BlankTickerKept | scripts/fetch_data.py:155-166 | a row whose ticker is only blanks passes the filter and becomes a holding with an empty symbol |
| Ssga.SsgaHoldings | scripts/fetch_data.py:133-172 | the full holdings list exists if and only if the download succeeded with status 200, the table parsed, and the row loop succeeded |
| Ssga.FetchHoldingsSsga | scripts/fetch_data.py:126-207 | a document exists if and only if the full list does; it is labelled "SSGA", lists the first min(top_n, k) holdings of the k kept rows with both counts equal to k, names the ETF by `longName`, else the ticker, else "SPDR <symbol> ETF" when the name lookup raises, enriches only those holdings and only when asked, gives an uncached symbol the sector of its own info lookup, queries exactly the uncached symbols of the returned holdings, each once, so the cache gains exactly those symbols with info's sectors, and leaves the cache untouched on failure |
| Yahoo.ApiHoldings | scripts/fetch_data.py:234-248 | each listing row becomes a holding with its symbol and name, sector "Unknown", and weight equal to 100 times the fraction, rounded to cents |
| Yahoo.FetchHoldingsYahoo | scripts/fetch_data.py:210-264 | a document exists if and only if the info call succeeds and the listing is present and non-empty; it holds the first min(top_n, listing) rows in listing order as percentages, with holdingsCount equal to their number, no totalHoldings, source "Yahoo Finance", and sector queries only when enrichment is asked; an uncached symbol gets the sector of its own info lookup; the queries are exactly the uncached symbols of the returned holdings, each once, and the cache gains exactly those symbols with info's sectors |
| Orchestrator.KindFor | scripts/fetch_data.py:271 | an ETF missing from the source table uses the API path |
| Orchestrator.SpreadsheetOnlyForSpy | scripts/fetch_data.py:40-62 | the spreadsheet source is configured for SPY and no other symbol, at the sponsor's SPY URL |
| Orchestrator.SsgaTotal | scripts/fetch_data.py:198-200 | a full count is known exactly when the spreadsheet path is configured and yields a list, and it is then the number of rows of the downloaded table that pass the ticker and weight checks |
| Orchestrator.FetchEtfHoldings | scripts/fetch_data.py:267-279 | the result is None only when every applicable path fails; its source is "SSGA" if and only if the ETF is configured for the spreadsheet and that path succeeded; holdings never exceed top_n and totalHoldings never falls below their number; holdingsCount is the kept-row total on the spreadsheet path and min(top_n, listing) on the API path, and the name is the spreadsheet path's or the library's long name accordingly; with enrichment each holding's sector is what the resulting cache holds for it; sectors are queried for exactly the uncached symbols of the returned holdings, each once, and the cache gains exactly those symbols with info's sectors |
| Orchestrator.Delegates | scripts/fetch_data.py:267-279 | when the spreadsheet serves the ETF the result is exactly the spreadsheet path's; otherwise it is exactly the API path's result, whether or not that succeeds |
| Orchestrator.FailedDownloadFallsBack | scripts/fetch_data.py:273-279 | a spreadsheet ETF whose download fails gets the API document, labelled "Yahoo Finance", counting only the listed rows, with no totalHoldings |
| Driver.FetchEtf | scripts/fetch_data.py:306-318 | the application document, the cache it leaves and its sector queries are exactly those of the orchestrator at depth 50 with sectors, and an archive is exactly its result at depth 500 without sectors from the cache the first call left, which adds no query; an ETF gets an application document exactly when some path serves it, and an archive exactly when its spreadsheet total exceeds 50; an archive comes from the spreadsheet and carries no sectors |
| Driver.OrchestratedCounted | scripts/fetch_data.py:320-330 | whatever cache it started from, an application document from the orchestrator carries the index fields of its path: the kept-row total and the spreadsheet name when the spreadsheet serves, otherwise min(50, listing) and the library's long name |
| Driver.OrchestratedSectors | scripts/fetch_data.py:65-81 | an application document from the orchestrator, started from a cache that extends the loop's first cache with info's sectors only, has for each holding the first cache's sector for its symbol or else info's sector |
| Driver.FetchAllHoldings | scripts/fetch_data.py:305-318 | the application documents cover exactly the served ETFs and the archives exactly the ETFs whose spreadsheet total exceeds 50; each stored document is what the orchestrator returns for that ETF, at depth 50 with sectors or 500 without, from a cache that extends the starting one with info's sectors only, so every sector in an application document is the starting cache's entry for its symbol or else info's sector; over the whole loop each sector is queried at most once and never for a symbol already cached; the cache gains exactly the queried symbols, and every uncached symbol held by a stored application document was queried; when no ETF is listed twice, nothing else was |
| Driver.Run | scripts/fetch_data.py:290-333 | prices cover only the configured symbols and include every one with history; the index lists exactly the served ETFs, each entry carrying its application document's name, holdingsCount and source, marked "SSGA" only for SPY when its spreadsheet succeeds; an entry's holdingsCount is the spreadsheet's kept-row total when the spreadsheet serves the ETF, otherwise min(50, listing); every document is the orchestrator's; since the cache starts empty, every sector in an application document is info's sector for its symbol, and so the same for a symbol in every ETF that holds it; each price record is the record of that symbol's closes and the price document is labelled "Yahoo Finance"; only SPY can be archived; the sector queries of a run are exactly the distinct symbols held by the application documents, each queried once, and the final cache holds exactly those symbols |

## Left out

- HTTP download, the temporary file and `pd.read_excel` with `skiprows=4` are I/O and a foreign parser. The parsed table is the input `Download` (`scripts/fetch_data.py:134-148`).
- The yfinance calls `Tickers`, `history`, `info` and `funds_data` are foreign library calls. They are oracle fields of `Env` and are deterministic: a request asked twice in one run gets the same reply. So the archive's second spreadsheet download cannot fail when the first one succeeded. The real job could see a different reply.
- Python `float` arithmetic is not modelled. Prices and weights are exact reals. `Rounding.Round2` rounds exact decimals half to even, while Python's `round` works on the binary double (for example `round(2.675, 2)` gives 2.67).
- NaN closes, a NaN listing weight and a NaN listing name are not modelled. On the spreadsheet path, a text `Weight` cell such as `"nan"` passes the `pd.isna` check (`scripts/fetch_data.py:162`) and `float()` turns it into a NaN weight (`scripts/fetch_data.py:168`); `WeightCell` has no NaN value, so such a row is not modelled either. Neither is a `Holding Percent` value that `float()` rejects in the API path (an exception, so that path fails). The listing fraction is always a real number.
- An `info` mapping whose `sector` or `longName` key is present but `None` is treated as absent. Python would store or return `None`.
- `top_n` is a natural number. The callers pass 50 and 500, so Python's slicing with a negative `top_n` is not modelled.
- Printing, traceback output, `save_json` and directory creation are I/O. `datetime.now` is a wall clock and appears as the single `Stamp` of `Env`. The job reads the clock again for each document (`scripts/fetch_data.py:119-121`, `195-197`, `255-257`, `322-323`), so its documents can carry different dates and times, for example across midnight UTC; in the model every document of a run carries the same stamp. JSON key order is not modelled. The job builds the index's `etfs` object and the `prices` object as insertion-ordered dicts (`scripts/fetch_data.py:90`, `108`, `312`, `326-332`), so the written files list entries in request order; `Prices.PriceSnapshot` and the index are maps, which carry no order.
- Column names and cell types of the spreadsheet are the parser's business. A missing `Ticker` column reads as a missing ticker. A missing `Weight` column reads as `Numeric(0.0)`. Non-text cells are given as their `str()` rendering.
- `Driver.FetchAllHoldings`: the promise that nothing but held symbols was queried assumes no ETF is listed twice. A repeated ETF replaces its earlier document, and the sectors queried for the replaced document stay in the trace. `MVP_ETFS` has no repeats, so `Driver.Run` states the exact query set.
- `Text.Strip`: its own contract only says the ends are not whitespace and the result is no longer than the input. That the result is the inner slice with only whitespace cut off is stated by `Text.StripIsSlice` and `Text.StripCutsOnlySpace`.

=== FILE: domain.dfy ===
/** Records produced by the fetcher and the replies of the external
    services it consults. Every external call (market-data library, HTTP
    download, spreadsheet parser, clock) is a total function of the request
    in `Env`: within one run the same request gets the same reply. */
module Domain {
  import opened Wrappers

  /** One constituent of an ETF: a `dict` with keys symbol, name, weight, sector. */
  datatype Holding = Holding(symbol: string, name: string, weight: real, sector: string)

  /** The JSON document written per ETF. `totalHoldings` is present only when
      the bulk spreadsheet produced the document. */
  datatype HoldingsDoc = HoldingsDoc(
    symbol: string,
    name: string,
    asOfDate: string,
    source: string,
    updatedAt: string,
    holdingsCount: nat,
    holdings: seq<Holding>,
    totalHoldings: Option<nat>)

  /** The sector assigned before (or instead of) a lookup. */
  const Unknown := "Unknown"

  /** Source labels written into documents. */
  const SsgaLabel := "SSGA"
  const YahooLabel := "Yahoo Finance"

  /** Reply of `yf.Ticker(symbol).info`: either the call raises, or it gives
      a mapping in which `longName` and `sector` may each be absent. */
  datatype InfoReply = InfoFailed | Info(longName: Option<string>, sector: Option<string>)

  /** A weight cell of the parsed spreadsheet: NaN, a number, or a value
      that `float()` rejects. A missing Weight column reads as `Numeric(0.0)`. */
  datatype WeightCell = Blank | Numeric(value: real) | Malformed

  /** One parsed spreadsheet row, after the four banner rows are skipped.
      Text cells are as `str()` renders them; `None` is a missing or NaN cell. */
  datatype Row = Row(ticker: Option<string>, name: Option<string>, weight: WeightCell)

  /** Outcome of `requests.get` followed by `pd.read_excel`: a transport
      error, or a status code with the parsed table (`None` when parsing fails). */
  datatype Download = TransportError | Response(status: int, table: Option<seq<Row>>)

  /** One row of `funds_data.top_holdings`: the index (ticker), the Name
      column and the Holding Percent column as a fraction of one. */
  datatype ApiRow = ApiRow(symbol: string, name: string, fraction: real)

  /** Wall-clock values stamped on documents. */
  datatype Stamp = Stamp(asOfDate: string, updatedAt: string)

  datatype Env = Env(
    info: string -> InfoReply,                     // yf.Ticker(s).info
    history: string -> Option<seq<real>>,          // closes of ticker.history(period="2d"), oldest first; None when the ticker is absent or the call raises
    download: string -> Download,                  // HTTP GET of a URL, then pd.read_excel(skiprows=4)
    topHoldings: string -> Option<seq<ApiRow>>,    // ticker.funds_data.top_holdings; None when absent or the call raises
    stamp: Stamp)

  /** Result of a holdings extractor: the document (or `None` on failure),
      the sector cache afterwards, and the symbols whose sector was requested
      from `info`, in call order. */
  datatype Fetched = Fetched(doc: Option<HoldingsDoc>, cache: map<string, string>, queried: seq<string>)

  /** `big` keeps every entry of `small`. */
  predicate Extends(big: map<string, string>, small: map<string, string>) {
    forall k :: k in small ==> k in big && big[k] == small[k]
  }

  /** No symbol occurs twice. */
  predicate NoDup(s: seq<string>) {
    forall i, j :: 0 <= i < j < |s| ==> s[i] != s[j]
  }

  /** Joining two duplicate-free sequences with no common element keeps
      them duplicate-free. */
  lemma NoDupConcat(a: seq<string>, b: seq<string>)
    requires NoDup(a) && NoDup(b)
    requires forall x :: x in a ==> x !in b
    ensures NoDup(a + b)
  {
    forall i, j | 0 <= i < j < |a + b|
      ensures (a + b)[i] != (a + b)[j]
    {
      if i < |a| <= j {
        assert (a + b)[i] in a && (a + b)[j] == b[j - |a|];
      }
    }
  }

  /** The symbols of `hs`, in order. */
  function Symbols(hs: seq<Holding>): seq<string> {
    seq(|hs|, i requires 0 <= i < |hs| => hs[i].symbol)
  }

  function Min(a: nat, b: nat): nat {
    if a <= b then a else b
  }
}

=== FILE: driver.dfy ===
/** `main`: prices for the fixed universe, then per ETF an application
    document (top 50, with sectors), a raw archive when the full list is
    longer than 50, and an index of the ETFs that produced a document. */
module Driver {
  import opened Wrappers
  import opened Domain
  import opened Prices
  import opened Ssga
  import opened Yahoo
  import opened Sectors
  import opened Orchestrator

  const MvpEtfs: seq<string> := ["VOO", "QQQ", "SCHD", "VTI", "SPY"]
  const PriceSymbols: seq<string> := MvpEtfs + ["AAPL", "MSFT", "GOOGL", "AMZN", "NVDA", "TSLA"]

  /** Depth of the application document, and of the raw archive. */
  const AppDepth: nat := 50
  const RawDepth: nat := 500

  /** One entry of the holdings index. */
  datatype IndexEntry = IndexEntry(name: string, holdingsCount: nat, source: string)

  datatype HoldingsIndex = HoldingsIndex(asOfDate: string, updatedAt: string, etfs: map<string, IndexEntry>)

  /** The documents written by the holdings phase, keyed by ETF, and the
      sector cache and sector queries it leaves behind. */
  datatype HoldingsRun = HoldingsRun(
    app: map<string, HoldingsDoc>,
    raw: map<string, HoldingsDoc>,
    cache: map<string, string>,
    queried: seq<string>)

  /** The archive is fetched when the application document's
      `totalHoldings` (0 when absent) exceeds the application depth. */
  predicate Archived(symbol: string, env: Env) {
    SsgaTotal(symbol, env).GetOr(0) > AppDepth
  }

  /** What `main` relies on in an application document. */
  predicate AppDocOk(symbol: string, d: HoldingsDoc, env: Env) {
    && d.symbol == symbol
    && |d.holdings| <= AppDepth
    && d.totalHoldings == SsgaTotal(symbol, env)
    && (d.source == SsgaLabel <==> SsgaServes(symbol, env))
  }

  /** The index fields of an application document, per path: the spreadsheet
      reports its kept rows and its own name, the listing its capped length
      and the library's fund name. */
  predicate AppDocCounted(symbol: string, d: HoldingsDoc, env: Env) {
    && (SsgaServes(symbol, env) ==>
          d.holdingsCount == SsgaTotal(symbol, env).value && d.name == SsgaEtfName(env.info(symbol), symbol))
    && (!SsgaServes(symbol, env) ==>
          && YahooServes(symbol, env)
          && d.holdingsCount == Min(AppDepth, |env.topHoldings(symbol).value|)
          && d.name == env.info(symbol).longName.GetOr(symbol))
  }

  /** `d` is the document the orchestrator returns for `symbol` at depth
      `topN` from some sector cache that extends `cache0` with nothing but
      `info`'s sectors. */
  ghost predicate Orchestrated(symbol: string, d: HoldingsDoc, topN: nat, enrich: bool, env: Env, cache0: map<string, string>) {
    exists c {:trigger FetchEtfHoldings(symbol, topN, enrich, env, c)} ::
      && Extends(c, cache0)
      && LearnedFrom(c, cache0, env.info)
      && FetchEtfHoldings(symbol, topN, enrich, env, c).doc == Some(d)
  }

  /** Each holding of `d` has the sector `cache0` held for its symbol, or
      else `info`'s sector for it. */
  predicate SectorsFrom(d: HoldingsDoc, cache0: map<string, string>, info: string -> InfoReply) {
    forall i :: 0 <= i < |d.holdings| ==>
      d.holdings[i].sector == (if d.holdings[i].symbol in cache0 then cache0[d.holdings[i].symbol]
                               else SectorOf(info(d.holdings[i].symbol)))
  }

  /** However many lookups came before, an application document's sectors
      are those of the starting cache or of `info`. */
  lemma OrchestratedSectors(symbol: string, d: HoldingsDoc, env: Env, cache0: map<string, string>)
    requires Orchestrated(symbol, d, AppDepth, true, env, cache0)
    ensures SectorsFrom(d, cache0, env.info)
  {
    var c :| Extends(c, cache0) && LearnedFrom(c, cache0, env.info)
             && FetchEtfHoldings(symbol, AppDepth, true, env, c).doc == Some(d);
    var r := FetchEtfHoldings(symbol, AppDepth, true, env, c);
    forall i | 0 <= i < |d.holdings|
      ensures d.holdings[i].sector == (if d.holdings[i].symbol in cache0 then cache0[d.holdings[i].symbol]
                                       else SectorOf(env.info(d.holdings[i].symbol)))
    {
      var k := d.holdings[i].symbol;
      assert k in r.cache && d.holdings[i].sector == r.cache[k];
      if k in c {
        assert r.cache[k] == c[k];
      }
    }
  }

  /** Whatever cache the orchestrator started from, an application document
      carries the index fields of its path. */
  lemma OrchestratedCounted(symbol: string, d: HoldingsDoc, env: Env, cache0: map<string, string>)
    requires Orchestrated(symbol, d, AppDepth, true, env, cache0)
    ensures AppDocCounted(symbol, d, env)
  {
    var c :| Extends(c, cache0) && LearnedFrom(c, cache0, env.info)
             && FetchEtfHoldings(symbol, AppDepth, true, env, c).doc == Some(d);
  }

  /** A raw archive comes from the spreadsheet and carries no sectors. */
  predicate RawDocOk(symbol: string, d: HoldingsDoc, env: Env) {
    && SsgaServes(symbol, env)
    && d.symbol == symbol
    && d.source == SsgaLabel
    && |d.holdings| <= RawDepth
    && forall i :: 0 <= i < |d.holdings| ==> d.holdings[i].sector == Unknown
  }

  /** One iteration of the ETF loop of `main`: the application document,
      then the archive when the application document's total exceeds 50. */
  method FetchEtf(symbol: string, env: Env, cache: map<string, string>)
    returns (app: Option<HoldingsDoc>, raw: Option<HoldingsDoc>, cache': map<string, string>, queried: seq<string>)
    ensures app.Some? <==> Available(symbol, env)
    ensures app.Some? ==> AppDocOk(symbol, app.value, env)
    ensures raw.Some? <==> Archived(symbol, env)
    ensures raw.Some? ==> RawDocOk(symbol, raw.value, env)
    // the documents are the orchestrator's, the archive fetched with the cache the first call left
    ensures app == FetchEtfHoldings(symbol, AppDepth, true, env, cache).doc
    ensures raw.Some? ==> raw == FetchEtfHoldings(symbol, RawDepth, false, env, cache').doc
    // the cache and the sector calls are those of the first orchestrator call; the archive adds none
    ensures cache' == FetchEtfHoldings(symbol, AppDepth, true, env, cache).cache
    ensures queried == FetchEtfHoldings(symbol, AppDepth, true, env, cache).queried
    ensures Extends(cache', cache) && LearnedFrom(cache', cache, env.info) && NoDup(queried)
    ensures forall q :: q in queried ==> q !in cache && q in cache'
    ensures forall q :: q in queried <==> app.Some? && q in Symbols(app.value.holdings) && q !in cache
    ensures cache'.Keys == cache.Keys + (set q | q in queried)
  {
    var fetched := FetchEtfHoldings(symbol, AppDepth, true, env, cache);
    app, raw, cache', queried := fetched.doc, None, fetched.cache, fetched.queried;
    if fetched.doc.Some? {
      var holdings := fetched.doc.value;
      if holdings.totalHoldings.GetOr(0) > AppDepth {
        var full := FetchEtfHoldings(symbol, RawDepth, false, env, cache');
        if full.doc.Some? {
          raw := full.doc;
        }
      }
    }
  }

  /** The ETFs of `xs` that get an application document, and those that get an archive. */
  function AvailableIn(xs: seq<string>, env: Env): set<string> {
    set s | s in xs && Available(s, env)
  }

  function ArchivedIn(xs: seq<string>, env: Env): set<string> {
    set s | s in xs && Archived(s, env)
  }

  /** One more ETF adds itself to each set exactly when it qualifies. */
  lemma InStep(etfs: seq<string>, i: nat, env: Env)
    requires i < |etfs|
    ensures Available(etfs[i], env) ==> AvailableIn(etfs[..i + 1], env) == AvailableIn(etfs[..i], env) + {etfs[i]}
    ensures !Available(etfs[i], env) ==> AvailableIn(etfs[..i + 1], env) == AvailableIn(etfs[..i], env)
    ensures Archived(etfs[i], env) ==> ArchivedIn(etfs[..i + 1], env) == ArchivedIn(etfs[..i], env) + {etfs[i]}
    ensures !Archived(etfs[i], env) ==> ArchivedIn(etfs[..i + 1], env) == ArchivedIn(etfs[..i], env)
  {
    assert etfs[..i + 1] == etfs[..i] + [etfs[i]];
  }

  /** Storing under a new key adds exactly that key. */
  lemma KeysStep<V>(m: map<string, V>, k: string, v: V, before: set<string>, after: set<string>)
    requires m.Keys == before && after == before + {k}
    ensures m[k := v].Keys == after
  {
  }

  /** Every application document in `app` is sound and is the orchestrator's
      from some cache that extends `cache0`; likewise for the archives. */
  ghost predicate AppDocsFrom(app: map<string, HoldingsDoc>, env: Env, cache0: map<string, string>) {
    forall s {:trigger app[s]} :: s in app ==>
      AppDocOk(s, app[s], env) && Orchestrated(s, app[s], AppDepth, true, env, cache0)
  }

  ghost predicate RawDocsFrom(raw: map<string, HoldingsDoc>, env: Env, cache0: map<string, string>) {
    forall s {:trigger raw[s]} :: s in raw ==>
      RawDocOk(s, raw[s], env) && Orchestrated(s, raw[s], RawDepth, false, env, cache0)
  }

  /** Storing a document that is sound on its own keeps every stored
      application document sound. */
  lemma AddAppDoc(app: map<string, HoldingsDoc>, symbol: string, d: Option<HoldingsDoc>, env: Env, cache0: map<string, string>)
    requires AppDocsFrom(app, env, cache0) && AppDocsFrom(Stored(map[], symbol, d), env, cache0)
    ensures AppDocsFrom(Stored(app, symbol, d), env, cache0)
  {
    if d.Some? {
      var one, app' := map[symbol := d.value], app[symbol := d.value];
      forall s | s in app'
        ensures AppDocOk(s, app'[s], env) && Orchestrated(s, app'[s], AppDepth, true, env, cache0)
      {
        if s == symbol {
          assert s in one && one[s] == app'[s];
        } else {
          assert app'[s] == app[s];
        }
      }
    }
  }

  lemma AddRawDoc(raw: map<string, HoldingsDoc>, symbol: string, d: Option<HoldingsDoc>, env: Env, cache0: map<string, string>)
    requires RawDocsFrom(raw, env, cache0) && RawDocsFrom(Stored(map[], symbol, d), env, cache0)
    ensures RawDocsFrom(Stored(raw, symbol, d), env, cache0)
  {
    if d.Some? {
      var one, raw' := map[symbol := d.value], raw[symbol := d.value];
      forall s | s in raw'
        ensures RawDocOk(s, raw'[s], env) && Orchestrated(s, raw'[s], RawDepth, false, env, cache0)
      {
        if s == symbol {
          assert s in one && one[s] == raw'[s];
        } else {
          assert raw'[s] == raw[s];
        }
      }
    }
  }

  /** A document the orchestrator built from a cache that extends `cache0`
      with `info`'s sectors, stored alone, is sound. */
  lemma OneAppDoc(symbol: string, d: HoldingsDoc, env: Env, cache0: map<string, string>, c: map<string, string>)
    requires Extends(c, cache0) && LearnedFrom(c, cache0, env.info)
    requires AppDocOk(symbol, d, env) && FetchEtfHoldings(symbol, AppDepth, true, env, c).doc == Some(d)
    ensures AppDocsFrom(map[symbol := d], env, cache0)
  {
    assert Orchestrated(symbol, d, AppDepth, true, env, cache0);
    var one := map[symbol := d];
    forall s | s in one
      ensures AppDocOk(s, one[s], env) && Orchestrated(s, one[s], AppDepth, true, env, cache0)
    {
      assert s == symbol && one[s] == d;
    }
  }

  lemma OneRawDoc(symbol: string, d: HoldingsDoc, env: Env, cache0: map<string, string>, c: map<string, string>)
    requires Extends(c, cache0) && LearnedFrom(c, cache0, env.info)
    requires RawDocOk(symbol, d, env) && FetchEtfHoldings(symbol, RawDepth, false, env, c).doc == Some(d)
    ensures RawDocsFrom(map[symbol := d], env, cache0)
  {
    assert Orchestrated(symbol, d, RawDepth, false, env, cache0);
    var one := map[symbol := d];
    forall s | s in one
      ensures RawDocOk(s, one[s], env) && Orchestrated(s, one[s], RawDepth, false, env, cache0)
    {
      assert s == symbol && one[s] == d;
    }
  }

  /** The symbols of every holding of every document in `app`. */
  function HeldSymbols(app: map<string, HoldingsDoc>): set<string> {
    set s, q | s in app && q in Symbols(app[s].holdings) :: q
  }

  /** Storing a document adds its symbols and can drop only those of the
      document it replaces. */
  lemma HeldStep(app: map<string, HoldingsDoc>, symbol: string, d: HoldingsDoc)
    ensures forall q :: q in HeldSymbols(app[symbol := d]) ==> q in Symbols(d.holdings) || q in HeldSymbols(app)
    ensures forall q :: q in Symbols(d.holdings) ==> q in HeldSymbols(app[symbol := d])
    ensures symbol !in app ==> HeldSymbols(app) <= HeldSymbols(app[symbol := d])
  {
    var app' := app[symbol := d];
    forall q | q in HeldSymbols(app')
      ensures q in Symbols(d.holdings) || q in HeldSymbols(app)
    {
      var s :| s in app' && q in Symbols(app'[s].holdings);
      if s != symbol {
        assert app'[s] == app[s];
      }
    }
    assert symbol in app' && app'[symbol] == d;
    if symbol !in app {
      forall q | q in HeldSymbols(app)
        ensures q in HeldSymbols(app')
      {
        var s :| s in app && q in Symbols(app[s].holdings);
        assert app'[s] == app[s];
      }
    }
  }

  /** `m` with `d`'s document stored under `k`, when there is one. */
  function Stored(m: map<string, HoldingsDoc>, k: string, d: Option<HoldingsDoc>): map<string, HoldingsDoc> {
    if d.Some? then m[k := d.value] else m
  }

  /** The sector cache and the sector calls of the loop so far: the cache
      extends the first one with `info`'s sectors for exactly the queried
      symbols, each queried once, never one already in the first cache, and
      every uncached symbol held by a stored document was queried; when no
      document was replaced (`complete`), nothing else was queried. */
  predicate TraceOk(app: map<string, HoldingsDoc>, queried: seq<string>, cache: map<string, string>,
                    cache0: map<string, string>, info: string -> InfoReply, complete: bool) {
    && Extends(cache, cache0) && LearnedFrom(cache, cache0, info) && NoDup(queried)
    && cache.Keys == cache0.Keys + (set q | q in queried)
    && (forall q :: q in queried ==> q !in cache0)
    && (forall q :: q in HeldSymbols(app) && q !in cache0 ==> q in queried)
    && (complete ==> forall q :: q in queried ==> q in HeldSymbols(app))
  }

  /** One ETF keeps the trace sound. */
  lemma TraceStep(app: map<string, HoldingsDoc>, queried: seq<string>, cache: map<string, string>,
                  cache0: map<string, string>, info: string -> InfoReply, complete: bool,
                  symbol: string, appDoc: Option<HoldingsDoc>, more: seq<string>, cache': map<string, string>)
    requires TraceOk(app, queried, cache, cache0, info, complete)
    requires Extends(cache', cache) && LearnedFrom(cache', cache0, info) && NoDup(more)
    requires forall q :: q in more <==> appDoc.Some? && q in Symbols(appDoc.value.holdings) && q !in cache
    requires cache'.Keys == cache.Keys + (set q | q in more)
    requires complete ==> symbol !in app
    ensures TraceOk(Stored(app, symbol, appDoc), queried + more, cache', cache0, info, complete)
  {
    var app' := Stored(app, symbol, appDoc);
    var all := queried + more;
    assert forall q :: q in queried ==> q in cache;
    NoDupConcat(queried, more);
    assert forall k :: k in cache0 ==> k in cache;
    assert Extends(cache', cache0);
    assert forall q :: q in all <==> q in queried || q in more;
    assert cache'.Keys == cache0.Keys + (set q | q in all);
    if appDoc.Some? {
      HeldStep(app, symbol, appDoc.value);
    }
    forall q | q in HeldSymbols(app') && q !in cache0
      ensures q in all
    {
      if q !in HeldSymbols(app) {
        assert appDoc.Some? && q in Symbols(appDoc.value.holdings);
        if q in cache {
          assert q in queried;
        }
      }
    }
    if complete {
      forall q | q in all
        ensures q in HeldSymbols(app')
      {
        if q in queried {
          assert q in HeldSymbols(app);
        }
      }
    }
  }

  /** Under no repeats, the ETF at position `i` has no document yet. */
  lemma FreshEtf(etfs: seq<string>, i: nat, env: Env)
    requires NoDup(etfs) && i < |etfs|
    ensures etfs[i] !in AvailableIn(etfs[..i], env)
  {
    forall j | 0 <= j < i
      ensures etfs[..i][j] != etfs[i]
    {
      assert etfs[..i][j] == etfs[j];
    }
  }

  /** `FetchEtf` seen from the start of the ETF loop: the documents are the
      orchestrator's from some cache that extends the loop's first cache. */
  method FetchEtfSince(symbol: string, env: Env, cache0: map<string, string>, cache: map<string, string>)
    returns (app: Option<HoldingsDoc>, raw: Option<HoldingsDoc>, cache': map<string, string>, queried: seq<string>)
    requires Extends(cache, cache0) && LearnedFrom(cache, cache0, env.info)
    ensures app.Some? <==> Available(symbol, env)
    ensures AppDocsFrom(Stored(map[], symbol, app), env, cache0)
    ensures raw.Some? <==> Archived(symbol, env)
    ensures RawDocsFrom(Stored(map[], symbol, raw), env, cache0)
    ensures Extends(cache', cache) && LearnedFrom(cache', cache0, env.info) && NoDup(queried)
    ensures forall q :: q in queried ==> q !in cache && q in cache'
    ensures forall q :: q in queried <==> app.Some? && q in Symbols(app.value.holdings) && q !in cache
    ensures cache'.Keys == cache.Keys + (set q | q in queried)
  {
    app, raw, cache', queried := FetchEtf(symbol, env, cache);
    if app.Some? {
      OneAppDoc(symbol, app.value, env, cache0, cache);
    }
    if raw.Some? {
      OneRawDoc(symbol, raw.value, env, cache0, cache');
    }
  }

  /** What the ETF loop keeps after its first `i` ETFs: the documents of
      exactly the ETFs that qualify, each sound and the orchestrator's, and a
      sound sector trace. */
  ghost predicate LoopOk(etfs: seq<string>, i: nat, env: Env, cache0: map<string, string>, run: HoldingsRun) {
    && i <= |etfs|
    && run.app.Keys == AvailableIn(etfs[..i], env)
    && run.raw.Keys == ArchivedIn(etfs[..i], env)
    && AppDocsFrom(run.app, env, cache0) && RawDocsFrom(run.raw, env, cache0)
    && TraceOk(run.app, run.queried, run.cache, cache0, env.info, NoDup(etfs))
  }

  /** Storing the documents of the ETF at position `i` keeps the document
      part of the loop's invariant. */
  lemma DocsStep(etfs: seq<string>, i: nat, env: Env, cache0: map<string, string>,
                 app: map<string, HoldingsDoc>, raw: map<string, HoldingsDoc>, appDoc: Option<HoldingsDoc>, rawDoc: Option<HoldingsDoc>)
    requires i < |etfs|
    requires app.Keys == AvailableIn(etfs[..i], env) && raw.Keys == ArchivedIn(etfs[..i], env)
    requires AppDocsFrom(app, env, cache0) && RawDocsFrom(raw, env, cache0)
    requires appDoc.Some? <==> Available(etfs[i], env)
    requires AppDocsFrom(Stored(map[], etfs[i], appDoc), env, cache0)
    requires rawDoc.Some? <==> Archived(etfs[i], env)
    requires RawDocsFrom(Stored(map[], etfs[i], rawDoc), env, cache0)
    ensures Stored(app, etfs[i], appDoc).Keys == AvailableIn(etfs[..i + 1], env)
    ensures Stored(raw, etfs[i], rawDoc).Keys == ArchivedIn(etfs[..i + 1], env)
    ensures AppDocsFrom(Stored(app, etfs[i], appDoc), env, cache0)
    ensures RawDocsFrom(Stored(raw, etfs[i], rawDoc), env, cache0)
  {
    var symbol := etfs[i];
    InStep(etfs, i, env);
    AddAppDoc(app, symbol, appDoc, env, cache0);
    AddRawDoc(raw, symbol, rawDoc, env, cache0);
    if appDoc.Some? {
      KeysStep(app, symbol, appDoc.value, AvailableIn(etfs[..i], env), AvailableIn(etfs[..i + 1], env));
    }
    if rawDoc.Some? {
      KeysStep(raw, symbol, rawDoc.value, ArchivedIn(etfs[..i], env), ArchivedIn(etfs[..i + 1], env));
    }
  }

  /** One iteration of the ETF loop: fetch the ETF at position `i` and store
      what it yields. */
  method FetchStep(etfs: seq<string>, i: nat, env: Env, cache0: map<string, string>, run: HoldingsRun)
    returns (run': HoldingsRun)
    requires i < |etfs| && LoopOk(etfs, i, env, cache0, run)
    ensures LoopOk(etfs, i + 1, env, cache0, run')
  {
    var symbol := etfs[i];
    var appDoc, rawDoc, cache', more := FetchEtfSince(symbol, env, cache0, run.cache);
    if NoDup(etfs) {
      FreshEtf(etfs, i, env);
    }
    TraceStep(run.app, run.queried, run.cache, cache0, env.info, NoDup(etfs), symbol, appDoc, more, cache');
    DocsStep(etfs, i, env, cache0, run.app, run.raw, appDoc, rawDoc);
    run' := HoldingsRun(Stored(run.app, symbol, appDoc), Stored(run.raw, symbol, rawDoc), cache', run.queried + more);
  }

  /** The ETF loop of `main` over `etfs`. */
  method FetchAllHoldings(etfs: seq<string>, env: Env, cache0: map<string, string>) returns (run: HoldingsRun)
    ensures run.app.Keys == set s | s in etfs && Available(s, env)
    ensures run.raw.Keys == set s | s in etfs && Archived(s, env)
    ensures forall s :: s in run.app ==> AppDocOk(s, run.app[s], env)
    ensures forall s :: s in run.raw ==> RawDocOk(s, run.raw[s], env)
    ensures forall s :: s in run.app ==> Orchestrated(s, run.app[s], AppDepth, true, env, cache0)
    // every sector in an application document is the starting cache's or `info`'s
    ensures forall s :: s in run.app ==> SectorsFrom(run.app[s], cache0, env.info)
    ensures forall s :: s in run.raw ==> Orchestrated(s, run.raw[s], RawDepth, false, env, cache0)
    // each symbol's sector is requested at most once over the whole loop
    ensures Extends(run.cache, cache0) && LearnedFrom(run.cache, cache0, env.info) && NoDup(run.queried)
    ensures forall q :: q in run.queried ==> q !in cache0 && q in run.cache
    // the cache gains exactly the queried symbols; every uncached symbol of a stored
    // document was queried, and with no ETF listed twice nothing else was
    ensures run.cache.Keys == cache0.Keys + (set q | q in run.queried)
    ensures forall q :: q in HeldSymbols(run.app) && q !in cache0 ==> q in run.queried
    ensures NoDup(etfs) ==> forall q :: q in run.queried ==> q in HeldSymbols(run.app)
  {
    run := HoldingsRun(map[], map[], cache0, []);
    var i := 0;
    while i < |etfs|
      invariant 0 <= i <= |etfs|
      invariant LoopOk(etfs, i, env, cache0, run)
    {
      run := FetchStep(etfs, i, env, cache0, run);
      i := i + 1;
    }
    assert etfs[..i] == etfs;
    forall s | s in run.app
      ensures SectorsFrom(run.app[s], cache0, env.info)
    {
      OrchestratedSectors(s, run.app[s], env, cache0);
    }
  }

  datatype RunOutput = RunOutput(prices: PriceSnapshot, holdings: HoldingsRun, index: HoldingsIndex)

  /** The whole run, starting from an empty sector cache. */
  method Run(env: Env) returns (out: RunOutput)
    ensures out.prices.prices.Keys <= set s | s in PriceSymbols
    ensures forall s :: s in PriceSymbols && Priced(env.history(s)) ==> s in out.prices.prices
    ensures forall s :: s in out.prices.prices ==>
              Priced(env.history(s)) && out.prices.prices[s] == PriceRecordOf(env.history(s).value)
    ensures out.prices.source == YahooLabel
    // the index lists exactly the ETFs for which some path produced a document
    ensures out.index.etfs.Keys == set s | s in MvpEtfs && Available(s, env)
    ensures forall s :: s in out.index.etfs ==>
              && s in out.holdings.app
              && out.index.etfs[s] == IndexEntry(out.holdings.app[s].name, out.holdings.app[s].holdingsCount, out.holdings.app[s].source)
              && (out.index.etfs[s].source == SsgaLabel <==> s == "SPY" && SsgaServes(s, env))
    // the count is the spreadsheet's kept rows when it serves, else the listing's length capped at 50
    ensures forall s :: s in out.index.etfs && SsgaServes(s, env) ==>
              out.index.etfs[s].holdingsCount == SsgaTotal(s, env).value
    ensures forall s :: s in out.index.etfs && !SsgaServes(s, env) ==>
              YahooServes(s, env) && out.index.etfs[s].holdingsCount == Min(AppDepth, |env.topHoldings(s).value|)
    ensures forall s :: s in out.holdings.app ==> Orchestrated(s, out.holdings.app[s], AppDepth, true, env, map[])
    ensures forall s :: s in out.holdings.raw ==> Orchestrated(s, out.holdings.raw[s], RawDepth, false, env, map[])
    // the cache starts empty, so every sector is `info`'s, the same for a symbol wherever it appears
    ensures forall s, i :: s in out.holdings.app && 0 <= i < |out.holdings.app[s].holdings| ==>
              out.holdings.app[s].holdings[i].sector == SectorOf(env.info(out.holdings.app[s].holdings[i].symbol))
    // only SPY can have a raw archive
    ensures out.holdings.raw.Keys <= {"SPY"}
    ensures NoDup(out.holdings.queried)
    // the sector calls are exactly the distinct symbols held by the application documents
    ensures forall q :: q in out.holdings.queried <==> q in HeldSymbols(out.holdings.app)
    ensures out.holdings.cache.Keys == set q | q in out.holdings.queried
  {
    var prices := FetchEodPrices(PriceSymbols, env);
    assert NoDup(MvpEtfs);
    var holdings := FetchAllHoldings(MvpEtfs, env, map[]);
    var index := HoldingsIndex(env.stamp.asOfDate, env.stamp.updatedAt,
      map s | s in holdings.app :: IndexEntry(holdings.app[s].name, holdings.app[s].holdingsCount, holdings.app[s].source));
    forall s | s in holdings.raw
      ensures s == "SPY"
    {
      SpreadsheetOnlyForSpy(s);
    }
    forall s | s in index.etfs
      ensures index.etfs[s].source == SsgaLabel <==> s == "SPY" && SsgaServes(s, env)
      ensures AppDocCounted(s, holdings.app[s], env)
    {
      SpreadsheetOnlyForSpy(s);
      OrchestratedCounted(s, holdings.app[s], env, map[]);
    }
    forall s, i | s in holdings.app && 0 <= i < |holdings.app[s].holdings|
      ensures holdings.app[s].holdings[i].sector == SectorOf(env.info(holdings.app[s].holdings[i].symbol))
    {
      assert SectorsFrom(holdings.app[s], map[], env.info);
    }
    out := RunOutput(prices, holdings, index);
  }
}

=== FILE: orchestrator.dfy ===
/** `fetch_etf_holdings` and the per-ETF source table `ETF_HOLDINGS_SOURCES`. */
module Orchestrator {
  import opened Wrappers
  import opened Domain
  import opened Ssga
  import opened Yahoo
  import opened Sectors

  /** How an ETF's holdings are obtained: the sponsor's spreadsheet at a
      URL, or the market-data library. */
  datatype SourceKind = SsgaExcel(url: string) | YFinance

  datatype SourceConfig = SourceConfig(provider: string, kind: SourceKind)

  const SpyHoldingsUrl := "https://www.ssga.com/us/en/intermediary/etfs/library-content/products/fund-data/etfs/us/holdings-daily-us-en-spy.xlsx"

  const HoldingsSources: map<string, SourceConfig> := map[
    "SPY" := SourceConfig("SSGA", SsgaExcel(SpyHoldingsUrl)),
    "VOO" := SourceConfig("Vanguard", YFinance),
    "VTI" := SourceConfig("Vanguard", YFinance),
    "QQQ" := SourceConfig("Invesco", YFinance),
    "SCHD" := SourceConfig("Schwab", YFinance)]

  /** The configured source kind; an ETF missing from the table uses the library. */
  function KindFor(symbol: string): (k: SourceKind)
    ensures symbol !in HoldingsSources ==> k == YFinance
  {
    if symbol in HoldingsSources then HoldingsSources[symbol].kind else YFinance
  }

  /** Only SPY is configured for the spreadsheet, at the sponsor's URL. */
  lemma SpreadsheetOnlyForSpy(symbol: string)
    ensures KindFor(symbol).SsgaExcel? <==> symbol == "SPY"
    ensures KindFor(symbol).SsgaExcel? ==> KindFor(symbol).url == SpyHoldingsUrl
  {
  }

  /** The spreadsheet path is configured for `symbol` and yields a list. */
  predicate SsgaServes(symbol: string, env: Env) {
    KindFor(symbol).SsgaExcel? && SsgaHoldings(env.download(KindFor(symbol).url)).Some?
  }

  /** Some path yields a document for `symbol`. */
  predicate Available(symbol: string, env: Env) {
    SsgaServes(symbol, env) || YahooServes(symbol, env)
  }

  /** The full count recorded as `totalHoldings`: the number of kept rows
      of the spreadsheet, known only when the spreadsheet path serves the ETF. */
  function SsgaTotal(symbol: string, env: Env): (t: Option<nat>)
    ensures t.Some? <==> SsgaServes(symbol, env)
    ensures t.Some? ==>
              && KindFor(symbol).SsgaExcel?
              && var d := env.download(KindFor(symbol).url);
                 && d.Response? && d.status == 200 && d.table.Some?
                 && t.value == |KeptIndices(d.table.value)|
  {
    if SsgaServes(symbol, env) then
      var d := env.download(KindFor(symbol).url);
      ParseRowsKept(d.table.value);
      Some(|SsgaHoldings(d).value|)
    else None
  }

  function FetchEtfHoldings(symbol: string, topN: nat, enrich: bool, env: Env, cache: map<string, string>): (r: Fetched)
    // `None` only when every applicable path fails
    ensures r.doc.Some? <==> Available(symbol, env)
    // the label names the path that actually produced the data
    ensures (r.doc.Some? && r.doc.value.source == SsgaLabel) <==> SsgaServes(symbol, env)
    ensures r.doc.Some? ==> r.doc.value.source == SsgaLabel || r.doc.value.source == YahooLabel
    ensures r.doc.Some? ==>
              var d := r.doc.value;
              && d.symbol == symbol
              && |d.holdings| <= topN
              && d.totalHoldings == SsgaTotal(symbol, env)
              && (d.totalHoldings.Some? ==> d.totalHoldings.value >= |d.holdings|)
              // the spreadsheet counts every kept row; the listing counts what it returns
              && d.holdingsCount == (if SsgaServes(symbol, env) then SsgaTotal(symbol, env).value
                                     else Min(topN, |env.topHoldings(symbol).value|))
              && d.name == (if SsgaServes(symbol, env) then SsgaEtfName(env.info(symbol), symbol)
                            else env.info(symbol).longName.GetOr(symbol))
              && (enrich ==> forall i :: 0 <= i < |d.holdings| ==>
                               d.holdings[i].symbol in r.cache && d.holdings[i].sector == r.cache[d.holdings[i].symbol])
              && (!enrich ==> forall i :: 0 <= i < |d.holdings| ==> d.holdings[i].sector == Unknown)
    // the cache only learns `info`'s sectors
    ensures Extends(r.cache, cache) && LearnedFrom(r.cache, cache, env.info) && NoDup(r.queried)
    ensures forall q :: q in r.queried ==> q !in cache && q in r.cache
    // sectors are asked for exactly the uncached symbols of the returned holdings,
    // and the cache gains exactly those
    ensures forall q :: q in r.queried <==> enrich && r.doc.Some? && q in Symbols(r.doc.value.holdings) && q !in cache
    ensures r.cache.Keys == cache.Keys + (set q | q in r.queried)
    ensures !enrich ==> r.cache == cache && r.queried == []
  {
    match KindFor(symbol)
    case SsgaExcel(url) =>
      var primary := FetchHoldingsSsga(symbol, url, topN, enrich, env, cache);
      if primary.doc.Some? then primary
      else FetchHoldingsYahoo(symbol, topN, enrich, env, primary.cache)
    case YFinance =>
      FetchHoldingsYahoo(symbol, topN, enrich, env, cache)
  }

  /** Which fetcher's result the orchestrator returns: a served spreadsheet
      ETF gets the spreadsheet document unchanged; otherwise the result is
      exactly the fallback's, whether or not it succeeds. */
  lemma Delegates(symbol: string, topN: nat, enrich: bool, env: Env, cache: map<string, string>)
    ensures var r := FetchEtfHoldings(symbol, topN, enrich, env, cache);
            && (SsgaServes(symbol, env) ==> r == FetchHoldingsSsga(symbol, KindFor(symbol).url, topN, enrich, env, cache))
            && (!SsgaServes(symbol, env) ==> r == FetchHoldingsYahoo(symbol, topN, enrich, env, cache))
  {
  }

  /** A spreadsheet ETF whose download fails falls back to the listing: the
      document carries the library's label, counts only the listed rows and
      has no total. */
  lemma FailedDownloadFallsBack(symbol: string, topN: nat, enrich: bool, env: Env, cache: map<string, string>)
    requires KindFor(symbol).SsgaExcel?
    requires SsgaHoldings(env.download(KindFor(symbol).url)).None?
    requires YahooServes(symbol, env) && |env.topHoldings(symbol).value| <= topN
    ensures var r := FetchEtfHoldings(symbol, topN, enrich, env, cache);
            && r.doc.Some?
            && r.doc.value.source == YahooLabel
            && r.doc.value.holdingsCount == |env.topHoldings(symbol).value|
            && r.doc.value.totalHoldings == None
  {
  }
}

=== FILE: prices.dfy ===
/** `fetch_eod_prices`: per-symbol price, change and percent change from
    the last two sessions of close prices. */
module Prices {
  import opened Wrappers
  import opened Domain
  import opened Rounding

  /** One entry of the `prices` mapping, after `round(…, 2)`. */
  datatype PriceRecord = PriceRecord(price: real, change: real, changePercent: real)

  /** The same three values before rounding. */
  datatype Quote = Quote(price: real, change: real, changePercent: real)

  /** The price document. */
  datatype PriceSnapshot = PriceSnapshot(asOfDate: string, source: string, updatedAt: string, prices: map<string, PriceRecord>)

  /** A history reply the collector keeps: the lookup succeeded with at least one session. */
  predicate Priced(history: Option<seq<real>>) {
    history.Some? && |history.value| >= 1
  }

  /** The previous close: the second-to-last session, or the last one when
      there is only one. */
  function PreviousClose(closes: seq<real>): (p: real)
    requires |closes| >= 1
    ensures |closes| >= 2 ==> p == closes[|closes| - 2]
    ensures |closes| == 1 ==> p == closes[0]
  {
    if |closes| >= 2 then closes[|closes| - 2] else closes[|closes| - 1]
  }

  /** Percent change, defined as 0 when the previous close is not positive. */
  function PercentChange(current: real, previous: real): (p: real)
    ensures previous <= 0.0 ==> p == 0.0
    ensures previous > 0.0 ==> p * previous == (current - previous) * 100.0
  {
    if previous > 0.0 then
      var p := (current - previous) / previous * 100.0;
      assert p * previous == (current - previous) * 100.0 by {
        assert (current - previous) / previous * previous == current - previous;
      }
      p
    else 0.0
  }

  function QuoteOf(closes: seq<real>): (q: Quote)
    requires |closes| >= 1
    ensures q.price == closes[|closes| - 1]
    ensures |closes| == 1 ==> q.change == 0.0 && q.changePercent == 0.0
    ensures |closes| >= 2 ==> q.change == closes[|closes| - 1] - closes[|closes| - 2]
    ensures PreviousClose(closes) <= 0.0 ==> q.changePercent == 0.0
    ensures PreviousClose(closes) > 0.0 ==> q.changePercent * PreviousClose(closes) == q.change * 100.0
  {
    var current := closes[|closes| - 1];
    var previous := PreviousClose(closes);
    Quote(current, current - previous, PercentChange(current, previous))
  }

  /** The record written for a symbol: every field is a whole number of
      cents within half a cent of the unrounded quote, and equal to it when
      the quote is already in cents. */
  function PriceRecordOf(closes: seq<real>): (r: PriceRecord)
    requires |closes| >= 1
    ensures var q := QuoteOf(closes);
            && IsCents(r.price) && -0.005 <= r.price - q.price <= 0.005
            && IsCents(r.change) && -0.005 <= r.change - q.change <= 0.005
            && IsCents(r.changePercent) && -0.005 <= r.changePercent - q.changePercent <= 0.005
            && (IsCents(q.price) ==> r.price == q.price)
            && (IsCents(q.change) ==> r.change == q.change)
            && (IsCents(q.changePercent) ==> r.changePercent == q.changePercent)
    ensures |closes| == 1 ==> r.change == 0.0 && r.changePercent == 0.0
    ensures PreviousClose(closes) <= 0.0 ==> r.changePercent == 0.0
  {
    var q := QuoteOf(closes);
    assert IsCents(0.0);
    PriceRecord(Round2(q.price), Round2(q.change), Round2(q.changePercent))
  }

  /** Two sessions closing at 100.00 and 105.00 give price 105.00, change
      5.00 and percent change 5.00. */
  lemma TwoSessionExample()
    ensures PriceRecordOf([100.0, 105.0]) == PriceRecord(105.0, 5.0, 5.0)
  {
    var q := QuoteOf([100.0, 105.0]);
    assert q.changePercent == 5.0;
    assert IsCents(105.0) && IsCents(5.0);
  }

  /** Collect a record for every symbol whose history lookup succeeds with
      at least one session; every other symbol is simply absent. */
  method FetchEodPrices(symbols: seq<string>, env: Env) returns (snap: PriceSnapshot)
    ensures snap.source == YahooLabel
    ensures snap.asOfDate == env.stamp.asOfDate && snap.updatedAt == env.stamp.updatedAt
    ensures forall s :: s in snap.prices <==> s in symbols && Priced(env.history(s))
    ensures forall s :: s in snap.prices ==> Priced(env.history(s)) && snap.prices[s] == PriceRecordOf(env.history(s).value)
  {
    var prices: map<string, PriceRecord> := map[];
    var i := 0;
    while i < |symbols|
      invariant 0 <= i <= |symbols|
      invariant forall s :: s in prices <==> s in symbols[..i] && Priced(env.history(s))
      invariant forall s :: s in prices ==> Priced(env.history(s)) && prices[s] == PriceRecordOf(env.history(s).value)
    {
      var symbol := symbols[i];
      var history := env.history(symbol);
      if history.Some? && |history.value| >= 1 {
        prices := prices[symbol := PriceRecordOf(history.value)];
      }
      assert symbols[..i + 1] == symbols[..i] + [symbol];
      i := i + 1;
    }
    assert symbols[..i] == symbols;
    snap := PriceSnapshot(env.stamp.asOfDate, YahooLabel, env.stamp.updatedAt, prices);
  }
}

=== FILE: rounding.dfy ===
/** Python's `round(x, 2)`, modelled on exact reals: round half to even at
    the second decimal place. */
module Rounding {

  /** `x` has at most two decimal places. */
  predicate IsCents(x: real) {
    (x * 100.0).Floor as real == x * 100.0
  }

  function Round2(x: real): (r: real)
    ensures IsCents(r)
    ensures -0.005 <= r - x <= 0.005
    ensures IsCents(x) ==> r == x
  {
    var scaled := x * 100.0;
    var f := scaled.Floor;
    var frac := scaled - f as real;
    var n := if frac < 0.5 then f
             else if frac > 0.5 then f + 1
             else if f % 2 == 0 then f else f + 1;
    assert -0.5 <= n as real - scaled <= 0.5;
    var r := n as real / 100.0;
    assert r * 100.0 == n as real;
    assert (n as real).Floor == n;
    assert r - x == (n as real - scaled) / 100.0;
    r
  }
}

=== FILE: sectors.dfy ===
/** `get_sector`: a memoised lookup of a symbol's sector through `info`,
    with the process-wide `_sector_cache` threaded explicitly. */
module Sectors {
  import opened Wrappers
  import opened Domain

  /** The sector `get_sector` caches for an `info` reply: the `sector`
      field, or "Unknown" when the field is absent or the call raised. */
  function SectorOf(reply: InfoReply): string {
    match reply
    case InfoFailed => Unknown
    case Info(_, sector) => sector.GetOr(Unknown)
  }

  /** Every entry of `big` that `small` lacks holds `info`'s sector for its
      key: the cache only ever learns the oracle's answers. */
  predicate LearnedFrom(big: map<string, string>, small: map<string, string>, info: string -> InfoReply) {
    forall k :: k in big && k !in small ==> big[k] == SectorOf(info(k))
  }

  /** One call of `get_sector`. */
  datatype Lookup = Lookup(sector: string, cache: map<string, string>, queried: seq<string>)

  function GetSector(cache: map<string, string>, symbol: string, info: string -> InfoReply): (r: Lookup)
    // a hit answers from the cache and calls nothing
    ensures symbol in cache ==> r.sector == cache[symbol] && r.cache == cache && r.queried == []
    // a miss calls `info` once and caches its answer
    ensures symbol !in cache ==>
              && r.queried == [symbol]
              && r.sector == SectorOf(info(symbol))
              && r.cache == cache[symbol := r.sector]
    // in every case the answer is what the cache now holds, and nothing else changed
    ensures symbol in r.cache && r.cache[symbol] == r.sector
    ensures Extends(r.cache, cache) && r.cache.Keys == cache.Keys + {symbol}
  {
    if symbol in cache then
      Lookup(cache[symbol], cache, [])
    else
      var sector := SectorOf(info(symbol));
      Lookup(sector, cache[symbol := sector], [symbol])
  }

  /** A second call for the same symbol returns the same sector, leaves the
      cache alone and calls nothing: across both calls `info` runs at most once. */
  lemma GetSectorTwice(cache: map<string, string>, symbol: string, info: string -> InfoReply)
    ensures var a := GetSector(cache, symbol, info);
            var b := GetSector(a.cache, symbol, info);
            && b.sector == a.sector
            && b.cache == a.cache
            && b.queried == []
            && |a.queried + b.queried| <= 1
  {
  }

  /** Several `get_sector` calls in a row, as the enrichment loops make them. */
  datatype Lookups = Lookups(sectors: seq<string>, cache: map<string, string>, queried: seq<string>)

  function GetSectors(cache: map<string, string>, symbols: seq<string>, info: string -> InfoReply): (r: Lookups)
    ensures |r.sectors| == |symbols|
    ensures Extends(r.cache, cache)
    decreases |symbols|
  {
    if |symbols| == 0 then
      Lookups([], cache, [])
    else
      var first := GetSector(cache, symbols[0], info);
      var rest := GetSectors(first.cache, symbols[1..], info);
      Lookups([first.sector] + rest.sectors, rest.cache, first.queried + rest.queried)
  }

  /** The cache gains exactly the requested symbols. */
  lemma {:induction false} GetSectorsKeys(cache: map<string, string>, symbols: seq<string>, info: string -> InfoReply)
    ensures GetSectors(cache, symbols, info).cache.Keys == cache.Keys + (set s | s in symbols)
    decreases |symbols|
  {
    if |symbols| > 0 {
      var first := GetSector(cache, symbols[0], info);
      GetSectorsKeys(first.cache, symbols[1..], info);
      assert (set s | s in symbols) == {symbols[0]} + (set s | s in symbols[1..]);
    }
  }

  /** Each answer is what the cache held for the symbol if it held
      anything, otherwise the oracle's answer, and the cache ends up holding
      every answer. */
  lemma {:induction false} GetSectorsAnswers(cache: map<string, string>, symbols: seq<string>, info: string -> InfoReply)
    ensures var r := GetSectors(cache, symbols, info);
            && (forall i :: 0 <= i < |symbols| ==> symbols[i] in r.cache && r.sectors[i] == r.cache[symbols[i]])
            && (forall i :: 0 <= i < |symbols| ==>
                  r.sectors[i] == (if symbols[i] in cache then cache[symbols[i]] else SectorOf(info(symbols[i]))))
    decreases |symbols|
  {
    if |symbols| > 0 {
      var tail := symbols[1..];
      var first := GetSector(cache, symbols[0], info);
      GetSectorsAnswers(first.cache, tail, info);
      var rest := GetSectors(first.cache, tail, info);
      var r := GetSectors(cache, symbols, info);
      assert r == Lookups([first.sector] + rest.sectors, rest.cache, first.queried + rest.queried);
      forall i | 0 <= i < |symbols|
        ensures symbols[i] in r.cache && r.sectors[i] == r.cache[symbols[i]]
        ensures r.sectors[i] == (if symbols[i] in cache then cache[symbols[i]] else SectorOf(info(symbols[i])))
      {
        if i > 0 {
          assert symbols[i] == tail[i - 1] && r.sectors[i] == rest.sectors[i - 1];
        }
      }
    }
  }

  /** Whatever a run of lookups adds to the cache is the oracle's sector. */
  lemma GetSectorsLearned(cache: map<string, string>, symbols: seq<string>, info: string -> InfoReply)
    ensures LearnedFrom(GetSectors(cache, symbols, info).cache, cache, info)
  {
    var r := GetSectors(cache, symbols, info);
    GetSectorsKeys(cache, symbols, info);
    GetSectorsAnswers(cache, symbols, info);
    forall k | k in r.cache && k !in cache
      ensures r.cache[k] == SectorOf(info(k))
    {
      assert k in symbols;
      var i :| 0 <= i < |symbols| && symbols[i] == k;
    }
  }

  /** The cache gains exactly the symbols `info` was asked about. */
  lemma GetSectorsGainsQueried(cache: map<string, string>, symbols: seq<string>, info: string -> InfoReply)
    ensures var r := GetSectors(cache, symbols, info);
            r.cache.Keys == cache.Keys + (set q | q in r.queried)
  {
    var r := GetSectors(cache, symbols, info);
    GetSectorsKeys(cache, symbols, info);
    GetSectorsQueries(cache, symbols, info);
    forall k | k in r.cache.Keys
      ensures k in cache.Keys + (set q | q in r.queried)
    {
      if k !in cache {
        assert k in symbols && k in r.queried;
      }
    }
  }

  /** `info` is asked exactly about the requested symbols missing from the
      cache, and about each of them once. */
  lemma {:induction false} GetSectorsQueries(cache: map<string, string>, symbols: seq<string>, info: string -> InfoReply)
    ensures var r := GetSectors(cache, symbols, info);
            && (forall q :: q in r.queried <==> q in symbols && q !in cache)
            && NoDup(r.queried)
    decreases |symbols|
  {
    if |symbols| > 0 {
      var first := GetSector(cache, symbols[0], info);
      GetSectorsQueries(first.cache, symbols[1..], info);
      var rest := GetSectors(first.cache, symbols[1..], info);
      assert forall q :: q in symbols <==> q == symbols[0] || q in symbols[1..];
      assert forall q :: q in rest.queried ==> q !in first.cache;
      var all := first.queried + rest.queried;
      forall i, j | 0 <= i < j < |all|
        ensures all[i] != all[j]
      {
        if j >= |first.queried| && i < |first.queried| {
          assert all[i] == symbols[0] && symbols[0] in first.cache;
          assert all[j] in rest.queried;
        }
      }
    }
  }

  /** When every requested symbol is already cached, `info` is not called
      and the cache is left as it was. */
  lemma {:induction false} AllHits(cache: map<string, string>, symbols: seq<string>, info: string -> InfoReply)
    requires forall i :: 0 <= i < |symbols| ==> symbols[i] in cache
    ensures var r := GetSectors(cache, symbols, info);
            r.queried == [] && r.cache == cache
    decreases |symbols|
  {
    if |symbols| > 0 {
      AllHits(cache, symbols[1..], info);
    }
  }

  /** The same symbol requested any number of times: one sector for all
      requests, and at most one call of `info`, made by the first request. */
  lemma {:induction false} RepeatedSymbol(cache: map<string, string>, symbols: seq<string>, symbol: string, info: string -> InfoReply)
    requires forall i :: 0 <= i < |symbols| ==> symbols[i] == symbol
    ensures var r := GetSectors(cache, symbols, info);
            && (r.queried == [] || r.queried == [symbol])
            && forall i :: 0 <= i < |symbols| ==> r.sectors[i] == r.sectors[0]
  {
    GetSectorsAnswers(cache, symbols, info);
    if |symbols| > 0 {
      var first := GetSector(cache, symbols[0], info);
      AllHits(first.cache, symbols[1..], info);
    }
  }
}

/** The enrichment loops of both holdings paths: each holding, in order,
    gets the sector that the memoised lookup gives for its symbol. */
module Enrichment {
  import opened Domain
  import opened Sectors

  datatype Enriched = Enriched(holdings: seq<Holding>, cache: map<string, string>, queried: seq<string>)

  function EnrichSectors(hs: seq<Holding>, cache: map<string, string>, info: string -> InfoReply): (r: Enriched)
    // only the sector changes, and it becomes what the cache holds for the symbol
    ensures |r.holdings| == |hs|
    ensures forall i :: 0 <= i < |hs| ==>
              hs[i].symbol in r.cache && r.holdings[i] == hs[i].(sector := r.cache[hs[i].symbol])
    ensures forall i :: 0 <= i < |hs| && hs[i].symbol in cache ==> r.holdings[i].sector == cache[hs[i].symbol]
    ensures forall i :: 0 <= i < |hs| && hs[i].symbol !in cache ==> r.holdings[i].sector == SectorOf(info(hs[i].symbol))
    ensures Extends(r.cache, cache) && LearnedFrom(r.cache, cache, info)
    // the cache gains exactly the symbols `info` was asked about
    ensures r.cache.Keys == cache.Keys + (set q | q in r.queried)
    // `info` is asked once about each symbol of `hs` that was not cached, and about nothing else
    ensures forall q :: q in r.queried <==> q in Symbols(hs) && q !in cache
    ensures NoDup(r.queried)
  {
    var symbols := Symbols(hs);
    assert |symbols| == |hs| && forall i :: 0 <= i < |hs| ==> symbols[i] == hs[i].symbol;
    var l := GetSectors(cache, symbols, info);
    GetSectorsAnswers(cache, symbols, info);
    GetSectorsQueries(cache, symbols, info);
    GetSectorsLearned(cache, symbols, info);
    GetSectorsGainsQueried(cache, symbols, info);
    Enriched(seq(|hs|, i requires 0 <= i < |hs| => hs[i].(sector := l.sectors[i])), l.cache, l.queried)
  }

  /** Sector enrichment when `enrich` holds; otherwise the holdings, the
      cache and the (empty) query trace are passed through untouched. */
  function EnrichIf(enrich: bool, hs: seq<Holding>, cache: map<string, string>, info: string -> InfoReply): (r: Enriched)
    ensures |r.holdings| == |hs| && Symbols(r.holdings) == Symbols(hs)
    ensures forall i :: 0 <= i < |hs| ==> r.holdings[i] == hs[i].(sector := r.holdings[i].sector)
    ensures enrich ==> forall i :: 0 <= i < |hs| ==>
              hs[i].symbol in r.cache && r.holdings[i].sector == r.cache[hs[i].symbol]
    ensures enrich ==> forall i :: 0 <= i < |hs| && hs[i].symbol !in cache ==>
              r.holdings[i].sector == SectorOf(info(hs[i].symbol))
    ensures !enrich ==> r.holdings == hs && r.cache == cache && r.queried == []
    ensures Extends(r.cache, cache) && LearnedFrom(r.cache, cache, info) && NoDup(r.queried)
    ensures r.cache.Keys == cache.Keys + (set q | q in r.queried)
    ensures forall q :: q in r.queried <==> enrich && q in Symbols(hs) && q !in cache
    ensures forall q :: q in r.queried ==> q in r.cache
  {
    if enrich then
      var e := EnrichSectors(hs, cache, info);
      assert Symbols(e.holdings) == Symbols(hs);
      e
    else
      Enriched(hs, cache, [])
  }
}

=== FILE: ssga.dfy ===
/** `fetch_holdings_ssga`: holdings from the sponsor's daily spreadsheet. */
module Ssga {
  import opened Wrappers
  import opened Domain
  import opened Text
  import opened Rounding
  import opened Sectors
  import opened Enrichment

  /** A row survives both checks of the row loop: its ticker is present and
      neither `''` nor `'-'`, and its weight is not NaN. */
  predicate Kept(row: Row) {
    && row.ticker.Some? && row.ticker.value != "" && row.ticker.value != "-"
    && !row.weight.Blank?
  }

  /** Positions of the kept rows, in increasing order. */
  function KeptIndices(rows: seq<Row>): (r: seq<nat>)
    ensures forall j :: 0 <= j < |r| ==> r[j] < |rows| && Kept(rows[r[j]])
    ensures forall j, k :: 0 <= j < k < |r| ==> r[j] < r[k]
    ensures forall i :: 0 <= i < |rows| && Kept(rows[i]) ==> i in r
    decreases |rows|
  {
    if |rows| == 0 then []
    else KeptIndices(rows[..|rows| - 1]) + (if Kept(rows[|rows| - 1]) then [|rows| - 1] else [])
  }

  /** The holding built from a kept row with a numeric weight, before enrichment. */
  function ToHolding(row: Row): (h: Holding)
    requires Kept(row) && row.weight.Numeric?
  {
    Holding(
      Strip(row.ticker.value),
      if row.name.Some? then Strip(row.name.value) else "",
      Round2(row.weight.value),
      Unknown)
  }

  /** The row loop: one holding per kept row, in row order. `float(weight)`
      raising on a kept row aborts the whole extraction. */
  function ParseRows(rows: seq<Row>): (r: Option<seq<Holding>>)
    ensures r.Some? <==> forall i :: 0 <= i < |rows| && Kept(rows[i]) ==> rows[i].weight.Numeric?
    ensures r.Some? ==> forall j :: 0 <= j < |r.value| ==> r.value[j].sector == Unknown
    decreases |rows|
  {
    if |rows| == 0 then Some([])
    else
      var init := rows[..|rows| - 1];
      var row := rows[|rows| - 1];
      assert forall i :: 0 <= i < |init| ==> init[i] == rows[i];
      match ParseRows(init)
      case None => None
      case Some(hs) =>
        if !Kept(row) then Some(hs)
        else if row.weight.Malformed? then None
        else Some(hs + [ToHolding(row)])
  }

  /** Appending a row to the table extends the row loop by one step. */
  lemma ParseRowsSnoc(rows: seq<Row>, row: Row)
    ensures ParseRows(rows + [row]) ==
              match ParseRows(rows)
              case None => None
              case Some(hs) =>
                if !Kept(row) then Some(hs)
                else if row.weight.Malformed? then None
                else Some(hs + [ToHolding(row)])
  {
    assert (rows + [row])[..|rows|] == rows;
  }

  /** `hs` holds one holding per kept row of `rows`, in row order. */
  ghost predicate FromKept(rows: seq<Row>, hs: seq<Holding>) {
    var idx := KeptIndices(rows);
    && |hs| == |idx|
    && forall j :: 0 <= j < |idx| ==> rows[idx[j]].weight.Numeric? && hs[j] == ToHolding(rows[idx[j]])
  }

  /** One step of the row loop on a kept row keeps `FromKept`. */
  lemma KeptRowStep(init: seq<Row>, row: Row, hs0: seq<Holding>)
    requires FromKept(init, hs0) && Kept(row) && row.weight.Numeric?
    ensures FromKept(init + [row], hs0 + [ToHolding(row)])
  {
    var rows := init + [row];
    assert rows[..|rows| - 1] == init;
    var idx0, idx := KeptIndices(init), KeptIndices(rows);
    var hs := hs0 + [ToHolding(row)];
    assert idx == idx0 + [|init|];
    forall j | 0 <= j < |idx|
      ensures rows[idx[j]].weight.Numeric? && hs[j] == ToHolding(rows[idx[j]])
    {
      if j < |idx0| {
        assert idx[j] == idx0[j] && hs[j] == hs0[j] && rows[idx[j]] == init[idx0[j]];
      }
    }
  }

  /** One step of the row loop on a dropped row keeps `FromKept`. */
  lemma DroppedRowStep(init: seq<Row>, row: Row, hs0: seq<Holding>)
    requires FromKept(init, hs0) && !Kept(row)
    ensures FromKept(init + [row], hs0)
  {
    var rows := init + [row];
    assert rows[..|rows| - 1] == init;
    var idx0, idx := KeptIndices(init), KeptIndices(rows);
    assert idx == idx0;
    forall j | 0 <= j < |idx|
      ensures rows[idx[j]].weight.Numeric? && hs0[j] == ToHolding(rows[idx[j]])
    {
      assert rows[idx[j]] == init[idx0[j]];
    }
  }

  /** The holdings are exactly the kept rows, each turned into a holding,
      in row order. */
  lemma {:induction false} ParseRowsKept(rows: seq<Row>)
    requires ParseRows(rows).Some?
    ensures var hs := ParseRows(rows).value;
            var idx := KeptIndices(rows);
            && |hs| == |idx|
            && forall j :: 0 <= j < |idx| ==>
                 rows[idx[j]].weight.Numeric? && hs[j] == ToHolding(rows[idx[j]])
    decreases |rows|
  {
    if |rows| > 0 {
      var init := rows[..|rows| - 1];
      var row := rows[|rows| - 1];
      assert init + [row] == rows;
      ParseRowsSnoc(init, row);
      ParseRowsKept(init);
      var hs0 := ParseRows(init).value;
      assert FromKept(init, hs0);
      if Kept(row) {
        KeptRowStep(init, row, hs0);
      } else {
        DroppedRowStep(init, row, hs0);
      }
      assert FromKept(rows, ParseRows(rows).value);
    }
  }

  /** Download, status check, parse and row loop: the full holdings list,
      or `None` for a transport error, a status other than 200, a parse
      error, or a malformed weight. */
  function SsgaHoldings(download: Download): (r: Option<seq<Holding>>)
    ensures r.Some? <==>
              && download.Response? && download.status == 200 && download.table.Some?
              && ParseRows(download.table.value).Some?
    ensures r.Some? ==> r == ParseRows(download.table.value)
  {
    match download
    case TransportError => None
    case Response(status, table) =>
      if status != 200 then None
      else match table
        case None => None
        case Some(rows) => ParseRows(rows)
  }

  /** The ETF's display name: `longName`, else the ticker, else (when the
      lookup raises) the sponsor-style default. */
  function SsgaEtfName(reply: InfoReply, symbol: string): string {
    match reply
    case InfoFailed => "SPDR " + symbol + " ETF"
    case Info(longName, _) => longName.GetOr(symbol)
  }

  /** The document built from the parsed list `all`: the first `topN`
      holdings, with sectors looked up when `enrich` holds and the list is
      not empty. */
  function SsgaDoc(symbol: string, all: seq<Holding>, topN: nat, enrich: bool, env: Env, cache: map<string, string>): (r: Fetched)
    ensures r.doc.Some?
    ensures var d := r.doc.value;
            && d.symbol == symbol
            && d.name == SsgaEtfName(env.info(symbol), symbol)
            && d.source == SsgaLabel
            && d.asOfDate == env.stamp.asOfDate && d.updatedAt == env.stamp.updatedAt
            && d.holdingsCount == |all|
            && d.totalHoldings == Some(|all|)
            && |d.holdings| == Min(topN, |all|)
            && (forall i :: 0 <= i < |d.holdings| ==> d.holdings[i] == all[i].(sector := d.holdings[i].sector))
            && (enrich ==> forall i :: 0 <= i < |d.holdings| ==>
                             d.holdings[i].symbol in r.cache && d.holdings[i].sector == r.cache[d.holdings[i].symbol])
            && (enrich ==> forall i :: 0 <= i < |d.holdings| && d.holdings[i].symbol !in cache ==>
                             d.holdings[i].sector == SectorOf(env.info(d.holdings[i].symbol)))
            && (!enrich ==> d.holdings == all[..Min(topN, |all|)])
            && (forall q :: q in r.queried <==> enrich && q in Symbols(all[..Min(topN, |all|)]) && q !in cache)
            && (forall q :: q in r.queried <==> enrich && q in Symbols(d.holdings) && q !in cache)
    ensures Extends(r.cache, cache) && LearnedFrom(r.cache, cache, env.info) && NoDup(r.queried)
    ensures forall q :: q in r.queried ==> q in r.cache
    ensures r.cache.Keys == cache.Keys + (set q | q in r.queried)
    ensures !enrich ==> r.cache == cache && r.queried == []
  {
    var top := all[..Min(topN, |all|)];
    var e := EnrichIf(enrich && |all| > 0, top, cache, env.info);
    var doc := HoldingsDoc(
      symbol, SsgaEtfName(env.info(symbol), symbol),
      env.stamp.asOfDate, SsgaLabel, env.stamp.updatedAt,
      |all|, e.holdings, Some(|all|));
    Fetched(Some(doc), e.cache, e.queried)
  }

  function FetchHoldingsSsga(symbol: string, url: string, topN: nat, enrich: bool, env: Env, cache: map<string, string>): (r: Fetched)
    ensures r.doc.Some? <==> SsgaHoldings(env.download(url)).Some?
    ensures r.doc.None? ==> r.cache == cache && r.queried == []
    ensures r.doc.Some? ==>
              var all := SsgaHoldings(env.download(url)).value;
              var d := r.doc.value;
              && d.symbol == symbol
              && d.name == SsgaEtfName(env.info(symbol), symbol)
              && d.source == SsgaLabel
              && d.asOfDate == env.stamp.asOfDate && d.updatedAt == env.stamp.updatedAt
              // both counts are the full list's length; only `holdings` is truncated
              && d.holdingsCount == |all|
              && d.totalHoldings == Some(|all|)
              && |d.holdings| == Min(topN, |all|)
              && (forall i :: 0 <= i < |d.holdings| ==> d.holdings[i] == all[i].(sector := d.holdings[i].sector))
              && (enrich ==> forall i :: 0 <= i < |d.holdings| ==>
                               d.holdings[i].symbol in r.cache && d.holdings[i].sector == r.cache[d.holdings[i].symbol])
              && (enrich ==> forall i :: 0 <= i < |d.holdings| && d.holdings[i].symbol !in cache ==>
                               d.holdings[i].sector == SectorOf(env.info(d.holdings[i].symbol)))
              && (!enrich ==> forall i :: 0 <= i < |d.holdings| ==> d.holdings[i].sector == Unknown)
              // sectors are requested only for the first topN holdings, once each, when not cached
              && (forall q :: q in r.queried <==> enrich && q in Symbols(all[..Min(topN, |all|)]) && q !in cache)
              && (forall q :: q in r.queried <==> enrich && q in Symbols(d.holdings) && q !in cache)
    ensures Extends(r.cache, cache) && LearnedFrom(r.cache, cache, env.info) && NoDup(r.queried)
    ensures forall q :: q in r.queried ==> q in r.cache
    ensures r.cache.Keys == cache.Keys + (set q | q in r.queried)
    ensures !enrich ==> r.cache == cache && r.queried == []
  {
    match SsgaHoldings(env.download(url))
    case None => Fetched(None, cache, [])
    case Some(all) => SsgaDoc(symbol, all, topN, enrich, env, cache)
  }

  /** A placeholder row between two holdings rows is dropped whatever its
      weight cell holds: two holdings, in row order, weights kept when they
      already have two decimals; for instance "AAA" at 10.5, "-", "BBB" at
      9.2 gives AAA then BBB. */
  lemma PlaceholderRowDropped(ta: string, wa: real, placeholderWeight: WeightCell, tb: string, wb: real)
    requires ta != "" && ta != "-" && !IsSpace(ta[0]) && !IsSpace(ta[|ta| - 1])
    requires tb != "" && tb != "-" && !IsSpace(tb[0]) && !IsSpace(tb[|tb| - 1])
    requires IsCents(wa) && IsCents(wb)
    ensures ParseRows([
              Row(Some(ta), None, Numeric(wa)),
              Row(Some("-"), None, placeholderWeight),
              Row(Some(tb), None, Numeric(wb))])
            == Some([Holding(ta, "", wa, Unknown), Holding(tb, "", wb, Unknown)])
  {
    var a := Row(Some(ta), None, Numeric(wa));
    var dash := Row(Some("-"), None, placeholderWeight);
    var b := Row(Some(tb), None, Numeric(wb));
    var ha, hb := Holding(ta, "", wa, Unknown), Holding(tb, "", wb, Unknown);
    StripKeepsTrimmed(ta);
    StripKeepsTrimmed(tb);
    assert ToHolding(a) == ha && ToHolding(b) == hb;
    var none: seq<Row> := [];
    var empty: seq<Holding> := [];
    assert ParseRows(none) == Some(empty);
    ParseRowsSnoc(none, a);
    assert none + [a] == [a] && empty + [ha] == [ha];
    ParseRowsSnoc([a], dash);
    assert [a] + [dash] == [a, dash];
    ParseRowsSnoc([a, dash], b);
    assert [a, dash] + [b] == [a, dash, b];
    assert [ha] + [hb] == [ha, hb];
  }

  /** A ticker of blanks is neither `''` nor `'-'`, so the row is kept, and
      stripping leaves an empty symbol. */
  lemma BlankTickerKept(ticker: string, weight: real)
    requires |ticker| > 0 && AllSpace(ticker)
    ensures var row := Row(Some(ticker), None, Numeric(weight));
            Kept(row) && ParseRows([row]) == Some([Holding("", "", Round2(weight), Unknown)])
  {
    StripAllSpace(ticker);
    assert ticker[0] != '-';
    var row := Row(Some(ticker), None, Numeric(weight));
    var none: seq<Row> := [];
    var empty: seq<Holding> := [];
    assert ParseRows(none) == Some(empty);
    ParseRowsSnoc(none, row);
    assert none + [row] == [row] && empty + [ToHolding(row)] == [ToHolding(row)];
  }
}

=== FILE: text.dfy ===
/** Python's `str.strip()` with no argument: remove leading and trailing
    whitespace, where whitespace is every character `str.isspace` accepts. */
module Text {

  /** The characters Python's `str.isspace` reports as whitespace. */
  predicate IsSpace(c: char) {
    || c == ' ' || c == '\t' || c == '\n' || c == '\r'
    || c == '\U{000B}' || c == '\U{000C}'
    || ('\U{001C}' <= c <= '\U{001F}')
    || c == '\U{0085}' || c == '\U{00A0}' || c == '\U{1680}'
    || ('\U{2000}' <= c <= '\U{200A}')
    || c == '\U{2028}' || c == '\U{2029}' || c == '\U{202F}'
    || c == '\U{205F}' || c == '\U{3000}'
  }

  predicate AllSpace(s: string) {
    forall i :: 0 <= i < |s| ==> IsSpace(s[i])
  }

  /** Where leading whitespace ends when scanning forward from `i`: the
      first position at or after `i` that is not whitespace, or `|s|`. */
  function LeftEnd(s: string, i: nat): (a: nat)
    requires i <= |s|
    ensures i <= a <= |s|
    ensures forall k :: i <= k < a ==> IsSpace(s[k])
    ensures a == |s| || !IsSpace(s[a])
    decreases |s| - i
  {
    if i < |s| && IsSpace(s[i]) then LeftEnd(s, i + 1) else i
  }

  /** Where trailing whitespace begins when scanning backward from `j`:
      the last position `b <= j` with `b == 0` or `s[b - 1]` not whitespace. */
  function RightEnd(s: string, j: nat): (b: nat)
    requires j <= |s|
    ensures b <= j
    ensures forall k :: b <= k < j ==> IsSpace(s[k])
    ensures b == 0 || !IsSpace(s[b - 1])
  {
    if j > 0 && IsSpace(s[j - 1]) then RightEnd(s, j - 1) else j
  }

  /** `s.lstrip()`: the longest suffix of `s` that does not start with whitespace. */
  function TrimLeft(s: string): (r: string)
    ensures |r| <= |s| && r == s[|s| - |r|..]
    ensures forall i :: 0 <= i < |s| - |r| ==> IsSpace(s[i])
    ensures r == [] || !IsSpace(r[0])
  {
    s[LeftEnd(s, 0)..]
  }

  /** `s.rstrip()`: the longest prefix of `s` that does not end with whitespace. */
  function TrimRight(s: string): (r: string)
    ensures |r| <= |s| && r == s[..|r|]
    ensures forall i :: |r| <= i < |s| ==> IsSpace(s[i])
    ensures r == [] || !IsSpace(r[|r| - 1])
  {
    s[..RightEnd(s, |s|)]
  }

  /** `s.strip()`: `rstrip` after `lstrip`, so no whitespace is left at
      either end (the pieces cut off are whitespace by the contracts above). */
  function Strip(s: string): (r: string)
    ensures |r| <= |s|
    ensures r == [] || (!IsSpace(r[0]) && !IsSpace(r[|r| - 1]))
  {
    var l := TrimLeft(s);
    var r := TrimRight(l);
    assert r != [] ==> r[0] == l[0];
    r
  }

  /** The result of stripping is the piece of `s` that starts where
      `lstrip` stops. */
  lemma StripIsSlice(s: string)
    ensures var r := Strip(s);
            var i := |s| - |TrimLeft(s)|;
            i + |r| <= |s| && r == s[i..i + |r|]
  {
    var l := TrimLeft(s);
    var i := |s| - |l|;
    var r := TrimRight(l);
    assert Strip(s) == r;
    forall k | 0 <= k < |r|
      ensures r[k] == s[i + k]
    {
      assert r[k] == l[k] && l[k] == s[i + k];
    }
  }

  /** Stripping cuts only whitespace, on both sides. */
  lemma StripCutsOnlySpace(s: string)
    ensures var r := Strip(s);
            var i := |s| - |TrimLeft(s)|;
            && (forall k :: 0 <= k < i ==> IsSpace(s[k]))
            && (forall k :: i + |r| <= k < |s| ==> IsSpace(s[k]))
  {
    var l := TrimLeft(s);
    var i := |s| - |l|;
    var r := TrimRight(l);
    assert forall k :: i + |r| <= k < |s| ==> s[k] == l[k - i];
  }

  /** A string without whitespace at either end is its own strip. */
  lemma {:induction false} StripKeepsTrimmed(s: string)
    requires s == [] || (!IsSpace(s[0]) && !IsSpace(s[|s| - 1]))
    ensures Strip(s) == s
  {
  }

  /** Stripping twice is stripping once. */
  lemma StripIdempotent(s: string)
    ensures Strip(Strip(s)) == Strip(s)
  {
    StripKeepsTrimmed(Strip(s));
  }

  /** A string of whitespace only strips to the empty string. */
  lemma {:induction false} StripAllSpace(s: string)
    requires AllSpace(s)
    ensures Strip(s) == []
  {
  }
}

=== FILE: wrappers.dfy ===
/** Optional values: the model's stand-in for Python's `None` and for a
    pandas cell that is missing or NaN. */
module Wrappers {

  datatype Option<+T> = None | Some(value: T) {

    /** The wrapped value, or `default` when there is none (`dict.get(k, default)`). */
    function GetOr(default: T): T {
      match this
      case Some(v) => v
      case None => default
    }
  }
}

=== FILE: yahoo.dfy ===
/** `fetch_holdings_yfinance`: the fallback path through the market-data
    library's top-holdings listing. */
module Yahoo {
  import opened Wrappers
  import opened Domain
  import opened Rounding
  import opened Sectors
  import opened Enrichment

  /** The listing rows turned into holdings: the fraction becomes a
      percentage rounded to cents, the sector starts as "Unknown". */
  function ApiHoldings(rows: seq<ApiRow>): (hs: seq<Holding>)
    ensures |hs| == |rows|
    ensures forall i :: 0 <= i < |rows| ==>
              && hs[i].symbol == rows[i].symbol
              && hs[i].name == rows[i].name
              && hs[i].sector == Unknown
              && IsCents(hs[i].weight)
              && -0.005 <= hs[i].weight - rows[i].fraction * 100.0 <= 0.005
              && (IsCents(rows[i].fraction * 100.0) ==> hs[i].weight == rows[i].fraction * 100.0)
  {
    seq(|rows|, i requires 0 <= i < |rows| =>
      Holding(rows[i].symbol, rows[i].name, Round2(rows[i].fraction * 100.0), Unknown))
  }

  /** The path produces a document: `info` answers and the listing is
      present and non-empty. */
  predicate YahooServes(symbol: string, env: Env) {
    && env.info(symbol).Info?
    && env.topHoldings(symbol).Some?
    && |env.topHoldings(symbol).value| > 0
  }

  function FetchHoldingsYahoo(symbol: string, topN: nat, enrich: bool, env: Env, cache: map<string, string>): (r: Fetched)
    ensures r.doc.Some? <==> YahooServes(symbol, env)
    ensures r.doc.None? ==> r.cache == cache && r.queried == []
    ensures r.doc.Some? ==>
              var listing := env.topHoldings(symbol).value;
              var d := r.doc.value;
              && d.symbol == symbol
              && d.name == env.info(symbol).longName.GetOr(symbol)
              && d.source == YahooLabel
              && d.asOfDate == env.stamp.asOfDate && d.updatedAt == env.stamp.updatedAt
              // the first topN listing rows, in listing order, and no total
              && |d.holdings| == Min(topN, |listing|)
              && d.holdingsCount == |d.holdings|
              && d.totalHoldings == None
              && (forall i :: 0 <= i < |d.holdings| ==>
                    && d.holdings[i].symbol == listing[i].symbol
                    && d.holdings[i].name == listing[i].name
                    && IsCents(d.holdings[i].weight)
                    && -0.005 <= d.holdings[i].weight - listing[i].fraction * 100.0 <= 0.005)
              && (enrich ==> forall i :: 0 <= i < |d.holdings| ==>
                               d.holdings[i].symbol in r.cache && d.holdings[i].sector == r.cache[d.holdings[i].symbol])
              && (enrich ==> forall i :: 0 <= i < |d.holdings| && d.holdings[i].symbol !in cache ==>
                               d.holdings[i].sector == SectorOf(env.info(d.holdings[i].symbol)))
              && (!enrich ==> forall i :: 0 <= i < |d.holdings| ==> d.holdings[i].sector == Unknown)
              && (forall q :: q in r.queried <==> enrich && q in Symbols(d.holdings) && q !in cache)
    ensures Extends(r.cache, cache) && LearnedFrom(r.cache, cache, env.info) && NoDup(r.queried)
    ensures forall q :: q in r.queried ==> q in r.cache
    ensures r.cache.Keys == cache.Keys + (set q | q in r.queried)
    ensures !enrich ==> r.cache == cache && r.queried == []
  {
    match env.info(symbol)
    case InfoFailed => Fetched(None, cache, [])
    case Info(longName, _) =>
      match env.topHoldings(symbol)
      case None => Fetched(None, cache, [])
      case Some(listing) =>
        if |listing| == 0 then Fetched(None, cache, [])
        else
          var base := ApiHoldings(listing[..Min(topN, |listing|)]);
          var e := EnrichIf(enrich, base, cache, env.info);
          var doc := HoldingsDoc(
            symbol, longName.GetOr(symbol),
            env.stamp.asOfDate, YahooLabel, env.stamp.updatedAt,
            |e.holdings|, e.holdings, None);
          Fetched(Some(doc), e.cache, e.queried)
  }
}
